=== FILE: README.md ===
# Voucher pool: a Dafny model of the voucher-issuing core

This project models the voucher-issuing logic of the voucher-pool service in
Dafny 4.11 and proves properties of that model. It covers:

- the code generator (`generateCoupon`), which turns a `uuid.v4` string into
  a voucher code by dropping the `-` separators and upper-casing it;
- the retry-until-unique generator that the service's tests expect
  `generateCoupon` to be. It makes up to ten draws. Each draw is probed in the
  Bloom filter as its separator-free, *not* upper-cased key. The first key the
  filter does not report is added, and its upper-cased form is returned. When
  all ten draws collide, generation fails with "Failed to generate unique
  coupon";
- the single-flight job gate (`genreateVoucherForAllCustomer`), a transaction
  over the `voucherForAll` row of the job table. A status of exactly "Active"
  is reported back. Anything else, including no row, is overwritten with
  "Active" and the batch sweep is started. A failing lookup, upsert or commit
  rolls back and answers "unable to create coupon at this time try
  aftersometime", even when the row already read "Active". Opening the
  transaction comes before the `try`, so a failure there rejects the call
  instead of answering;
- the batch sweep (`processCoupons`):
  - the page arithmetic: one page of `count` rows below the page size, and
    pages of `voucherLimit` rows at offsets 0, limit, 2·limit, … otherwise;
  - the per-page transaction (`createVocherForCustomer`), which fetches the
    page's customers and bulk-inserts one fresh voucher each;
  - the reset of the job to "inActive";
- redemption (`verifyCoupon`) and listing (`getCouponByEmail`) over the
  voucher view. The service's tests define both; the service file does not;
- the Bloom filter wrapper (`BloomFilterService`). Its state is uninitialised
  or a set of inserted codes. `onModuleInit` installs an empty filter and
  loads every persisted code. `add` and `has` fail before initialisation.

Randomness, the clock and database failures are parameters:

- UUID draws are a `seq<string>`;
- time is a `nat` of seconds;
- each transaction takes a fault value naming the call that fails.

The gate's transaction and each page transaction are modelled as one atomic
step: a failed one leaves the tables as they were. Redemption is different.
Its `used` update is issued without the lookup's transaction and takes effect
on its own, so a commit failure after the update leaves the voucher used.

Modules, one file each:

| module | file | models |
|---|---|---|
| `Wrappers` | wrappers.dfy | `Option`, `Result` |
| `Canonical` | canonical.dfy | separator stripping, upper-casing, the code |
| `Records` | records.dfy | customer and voucher rows |
| `Membership` | membership.dfy | the Bloom filter wrapper |
| `Generator` | generator.dfy | the retry-until-unique generator |
| `JobGate` | jobgate.dfy | the single-flight gate |
| `Pagination` | pagination.dfy | page calls and page fetches |
| `Batch` | batch.dfy | page minting and the sweep |
| `Redemption` | redemption.dfy | redemption and listing |

Behaviours of the code that the model keeps as written:

- **A page failure aborts the sweep.** `createVocherForCustomer` catches
  nothing. An error from `findAll` or `bulkCreate` reaches the `catch` of
  `processCoupons`, so the later pages are skipped and the job stays
  "Active". The failing page's transaction is never committed; the model
  treats it as rolled back. The service's tests for `createVocherForCustomer`
  expect a rollback inside that method, which the code does not perform. The
  model follows the code (`Batch.PageFailureAborts`).
- **A small population never resets the job.** When the customer count is
  below the page size, `processCoupons` returns before the "inActive" upsert.
  Every later fault-free gate call then answers "Active" (`Batch.GateAfterSweep`).
- **Filter keys and codes differ in case.** The filter is probed and updated
  with the lower-case key, while the code that is stored and returned is
  upper-cased. After a restart the filter holds the persisted upper-case
  codes, so a draw whose code is already persisted is not detected
  (`Generator.PersistedCodeNotDetected`). For the same reason the returned
  code itself is never registered: when its key has a letter a–f, the code
  tests exactly as it did before the call, so "returned codes test present"
  does not hold as written (`Generator.ReturnedCodeNotRegistered`). The
  test's UUID with an empty filter yields a code that tests absent
  (`Generator.ExampleCodeAbsent`).
- **A failed redemption commit still spends the voucher.** `verifyCoupon`
  marks the voucher used outside its transaction and commits afterwards. When
  the commit fails, the request rejects, yet the voucher stays used
  (`Redemption.CommitFailureSpendsVoucher`). When a code names one voucher
  per email, a retry answers "Coupon is not valid"
  (`Redemption.RetryAfterFailedCommit`).
- **Two generators.** `generateCoupon` as written draws once and never
  consults the filter, and it is the one the page minting calls. The batch
  model therefore codes each voucher as the canonical form of one draw. The
  filter-aware generator that the tests describe is modelled separately as
  `Generator.GenerateUnique`.

## Model

| member | source | states |
|---|---|---|
| Canonical.UpperChar | src/voucher/voucher.service.ts:16 | A lower-case ASCII letter becomes the upper-case letter 32 code points below it; every other character is unchanged; the result is never lower-case |
| Canonical.StripHyphens | src/voucher/voucher.service.ts:15 | No separator remains, and the length drops by exactly the number of separators |
| Canonical.StripKeepsOthers | src/voucher/voucher.service.ts:15 | Every non-separator character survives stripping, as many times as it occurred |
| Canonical.ToUpper | src/voucher/voucher.service.ts:16 | Upper-casing keeps the length and maps each position through the one-character upper-casing |
| Canonical.Canonicalise | src/voucher/voucher.service.ts:13-17 | The code has no separator and no lower-case letter, and is as long as the input minus its separators |
| Canonical.StripConcat | src/voucher/voucher.service.ts:15 | Stripping a concatenation is concatenating the stripped parts |
| Canonical.StripNoHyphen | src/voucher/voucher.service.ts:15 | A string without separators is unchanged by stripping |
| Canonical.UpperStripCommute | src/voucher/voucher.service.ts:15-16 | Stripping then upper-casing equals upper-casing then stripping |
| Canonical.CanonicalIsFixed | src/voucher/voucher.service.ts:13-17 | A string without separators or lower-case letters is its own code |
| Canonical.CanonicaliseIdempotent | src/voucher/voucher.service.ts:13-17 | Canonicalising a code again changes nothing |
| Canonical.KeyDiffersFromCode | src/voucher/voucher.service.spec.ts:221-228 | The separator-free key the filter sees differs from the returned code exactly when it contains a lower-case letter |
| Canonical.UuidKey | src/voucher/voucher.service.ts:14-15 | The key of an 8-4-4-4-12 UUID is its five groups joined without separators |
| Canonical.UuidCodeShape | src/voucher/voucher.service.ts:14-16 | A UUID draw yields a 32-character code of digits and upper-case A-F |
| Canonical.GroupedCode | src/voucher/voucher.service.ts:15-16 | The code of a five-group UUID is the groups, each upper-cased, joined |
| Canonical.ExampleVector | src/voucher/voucher.service.spec.ts:213-228 | a1b2c3d4-e5f6-7890-1234-567890abcdef gives A1B2C3D4E5F678901234567890ABCDEF |
| Membership.Add | src/bloomFilters/bloom.service.ts:29-31 | Adding fails exactly when no filter was created; otherwise the item is present afterwards, nothing is removed, and nothing else is added |
| Membership.Has | src/bloomFilters/bloom.service.ts:33-35 | Asking fails exactly when no filter was created; otherwise the answer is membership in the inserted set |
| Membership.LoadCodes | src/bloomFilters/bloom.service.ts:20-22 | After the load loop every persisted code is present, everything present was already there or is a persisted code, and nothing was lost |
| Membership.OnModuleInit | src/bloomFilters/bloom.service.ts:12-22 | A filter is always installed; the load failure is reported exactly when the read fails, and then the filter is empty; otherwise its contents are exactly the persisted codes |
| Membership.AddThenHas | src/bloomFilters/bloom.service.ts:29-35 | An added item always tests present: no false negatives |
| Membership.AddKeepsPresent | src/bloomFilters/bloom.service.ts:29-31 | Adding never makes a present item absent |
| Membership.EmptyLoad | src/bloomFilters/bloom.service.spec.ts:83-95 | With no persisted vouchers the loaded filter is empty |
| Generator.GenErrorText | src/voucher/voucher.service.spec.ts:274-279 | Exhaustion, and only exhaustion, throws "Failed to generate unique coupon"; an uninitialised filter throws the runtime's own error |
| Generator.FirstAbsent | src/voucher/voucher.service.spec.ts:232-267 | Finds the first draw whose key is absent and reports that all earlier keys were present; finds none exactly when every key in range is present |
| Generator.GenerateUnique | src/voucher/voucher.service.spec.ts:212-285 | Without a filter it fails; with one, it fails exactly when all ten keys are present; on success it used the first draw with an absent key, every earlier key was present, the code is that draw's canonical form, and the filter gained exactly that key |
| Generator.CollisionsThenFresh | src/voucher/voucher.service.spec.ts:232-267 | K < 10 reported collisions and then an absent key: K+1 draws, only that key added, its upper-cased form returned |
| Generator.AllCollide | src/voucher/voucher.service.spec.ts:269-284 | Ten reported collisions: generation fails with the exhaustion error, whose message is "Failed to generate unique coupon", and adds nothing |
| Generator.FirstDrawFresh | src/voucher/voucher.service.spec.ts:213-228 | An absent first key: one draw, whose canonical form is returned |
| Generator.RegisteredKeyPresent | src/voucher/voucher.service.spec.ts:224-227 | The key added for a returned code tests present in the new filter |
| Generator.ReturnedCodeNotRegistered | src/voucher/voucher.service.spec.ts:221-228 | When the returned key has a lower-case letter, the returned code tests in the new filter exactly as it did in the old one: registering the key does not register the code |
| Generator.ExampleCodeAbsent | src/voucher/voucher.service.spec.ts:213-228 | The test's UUID drawn first against an empty filter yields "A1B2C3D4E5F678901234567890ABCDEF", which then tests absent |
| Generator.PersistedCodeNotDetected | src/voucher/voucher.service.spec.ts:221-228 | After a restart with a persisted code, a draw of that same code whose key has a lower-case letter is not detected, and the persisted code is returned again |
| JobGate.StatusText | src/voucher/voucher.service.ts:34-57 | The three answers map one-to-one onto "Active", "success" and the "unable to create coupon…" text |
| JobGate.StartIfIdle | src/voucher/voucher.service.ts:19-59 | The call rejects exactly when opening the transaction fails. Otherwise: "Active" exactly when the lookup and commit succeed and the row is exactly "Active"; started exactly when no call fails and the row is not "Active"; "unable…" in every other case. Starting sets the row to "Active" and hands off the same offer and expiry. Every other outcome leaves the table unchanged and hands off nothing |
| JobGate.GateLeavesJobActive | src/voucher/voucher.service.ts:34-47 | Unless the call answered "unable…", the job is "Active" afterwards; no other row changes |
| JobGate.SingleFlight | src/voucher/voucher.service.ts:34-51 | After a call that started a sweep, the next call never starts one, hands off nothing and changes nothing |
| JobGate.InactiveReopens | src/voucher/voucher.service.ts:34-51 | A row reading "inActive" lets the gate start a sweep, setting the row to "Active" and handing off the request |
| JobGate.CommitFailureWhileActive | src/voucher/voucher.service.ts:34-57 | A failing commit after an "Active" lookup answers "unable…" and changes nothing |
| Pagination.FindAll | src/voucher/voucher.service.ts:107-111 | A page fetch returns min(limit, count − offset) customers starting at the offset, and none past the end |
| Pagination.LoopPages | src/voucher/voucher.service.ts:75-84 | The loop from an offset makes no call exactly when the offset is at or past the count (the calls themselves: `LoopPagesOffsets`, `LoopPagesCount`) |
| Pagination.PageCalls | src/voucher/voucher.service.ts:65-84 | The sweep always makes at least one page call, even for an empty customer table, where it is the single page (0, 0); the exact calls are stated by `PageCallsShape` |
| Pagination.PageCallsShape | src/voucher/voucher.service.ts:65-84 | The sweep's page calls (`PageCalls`): below the page size exactly one page (count, 0); otherwise ⌈count/limit⌉ pages (limit, k·limit) with strictly increasing offsets |
| Pagination.LoopPagesOffsets | src/voucher/voucher.service.ts:75-84 | The k-th loop page is (limit, offset + k·limit) and starts below the count |
| Pagination.LoopPagesCount | src/voucher/voucher.service.ts:76 | The loop makes n calls with (n−1)·limit < count − offset ≤ n·limit, i.e. ⌈(count − offset)/limit⌉ |
| Pagination.LoopPagesIncreasing | src/voucher/voucher.service.ts:75-84 | Loop offsets never fall below the start and strictly increase |
| Pagination.LoopPagesCover | src/voucher/voucher.service.ts:75-84 | The loop's pages fetch exactly the customers from the start offset on, each once, in order |
| Pagination.PageCallsCover | src/voucher/voucher.service.ts:65-84 | For every page size, the sweep's pages fetch every customer exactly once, in order |
| Pagination.SlicesAppend | src/voucher/voucher.service.ts:76-84 | Fetching two lists of pages one after the other fetches the concatenation of their customers |
| Pagination.Example250 | src/voucher/voucher.service.spec.ts:680-720 | 250 customers with page size 100: pages at 0, 100 and 200, fetching 100, 100 and 50 customers |
| Pagination.Example200And50 | src/voucher/voucher.service.spec.ts:659-750 | 200 customers: pages at 0 and 100; 50 customers: one page (50, 0) |
| Batch.NewVoucher | src/voucher/voucher.service.ts:114-119 | A fresh voucher carries the customer's id, the offer and the expiry, is unused, and has a canonical code |
| Batch.MintVouchers | src/voucher/voucher.service.ts:112-121 | One voucher per customer, in order, customer i coded from draw i |
| Batch.CreateForPage | src/voucher/voucher.service.ts:98-128 | A page fails exactly when one of its calls fails, and the table is then unchanged. Otherwise the old table is kept as a prefix and one voucher per fetched customer follows, owners in customer order |
| Batch.RunPages | src/voucher/voucher.service.ts:76-84 | Pages commit in order until the first failing page, which ends the walk; the walk fails exactly when a page failed |
| Batch.ProcessCoupons | src/voucher/voucher.service.ts:61-93 | A failing count changes nothing. Otherwise the calls are a prefix of the page calls and the old vouchers are kept. The job is reset to "inActive" exactly when the count is at least the page size, no page fails and the upsert succeeds |
| Batch.MintAppend | src/voucher/voucher.service.ts:113-121 | Minting two customer lists one after the other, with the draws continuing, mints their concatenation |
| Batch.RunPagesTable | src/voucher/voucher.service.ts:76-84 | The walk appends exactly the vouchers of the committed pages' customers, in order, coded from the draws in order |
| Batch.SweepMintsEveryCustomer | src/voucher/voucher.service.ts:61-89 | A sweep whose count and pages succeed makes every page call and gives every customer exactly one voucher, in customer order, whether or not the final reset fails |
| Batch.SmallPopulationNoReset | src/voucher/voucher.service.ts:65-74 | Below the page size the one page (count, 0) is processed and the job is never reset |
| Batch.PageFailureAborts | src/voucher/voucher.service.ts:76-92 | If page k is the first to fail, pages before k are committed, page k and later pages are not, and the job is not reset |
| Batch.CountFailureChangesNothing | src/voucher/voucher.service.spec.ts:752-766 | A failing count runs no page, inserts nothing and does not reset the job |
| Batch.GateAfterSweep | src/voucher/voucher.service.ts:65-89 | After a started gate and a fault-free sweep, a population of at least one page reopens the gate, while a smaller one leaves every later fault-free gate call answering "Active" |
| Batch.Example250Sweep | src/voucher/voucher.service.spec.ts:680-720 | 250 customers with page size 100: calls at 0, 100 and 200, and the job is reset to "inActive" |
| Redemption.VerdictText | src/voucher/voucher.service.spec.ts:376-398 | The refusals read "Coupon has expired" and "Coupon is not valid"; a discount carries no message |
| Redemption.FindOne | src/voucher/voucher.service.spec.ts:360-367 | The lookup finds the first row with the code, the email and used = false, and reports none exactly when no row matches |
| Redemption.MarkUsed | src/voucher/voucher.service.spec.ts:368-371 | The update sets used on the rows of that voucher and leaves every other row unchanged |
| Redemption.VerifyCoupon | src/voucher/voucher.service.spec.ts:287-431 | A failing lookup rejects and changes nothing; a failing commit always rejects. "Not valid" exactly when neither fails and no row matches. A discount comes from a matching unexpired row, whose voucher alone is marked used. A refusal changes no row, a rejection reports its fault, and the only change any call makes is marking one matching unexpired voucher used |
| Redemption.ListByEmail | src/voucher/voucher.service.spec.ts:454-481 | The listing holds exactly the rows of the email that are unused and expire strictly after now |
| Redemption.GetCouponByEmail | src/voucher/voucher.service.spec.ts:433-508 | The request fails exactly when the query fails; otherwise it returns exactly the listable rows |
| Redemption.RedeemValid | src/voucher/voucher.service.spec.ts:348-374 | The first match being unexpired returns its discount and marks that voucher used |
| Redemption.RedeemExpired | src/voucher/voucher.service.spec.ts:376-388 | The first match being expired answers "Coupon has expired" and changes no row |
| Redemption.FailedRedeemMarksNothing | src/voucher/voucher.service.spec.ts:510-528 | A failing update rejects exactly when the first match is unexpired, and whatever happens no row becomes used |
| Redemption.CommitFailureSpendsVoucher | src/voucher/voucher.service.spec.ts:368-373 | A failing commit after the update rejects, yet leaves every row of the first matching unexpired voucher marked used and every other row unchanged |
| Redemption.RetryAfterFailedCommit | src/voucher/voucher.service.spec.ts:368-373 | When a code names one voucher per email, a retry after the failed commit answers "Coupon is not valid" and changes nothing |
| Redemption.RedeemTwice | src/voucher/voucher.service.spec.ts:400-415 | When a code names one voucher per email: after a successful redemption the same code and email answer "Coupon is not valid" and change nothing |
| Redemption.RedeemedNotListed | src/voucher/voucher.service.spec.ts:473-479 | When a code names one voucher per email, a redeemed code no longer appears in its owner's listing |
| Redemption.ListAllListable | src/voucher/voucher.service.spec.ts:454-481 | When every row is listable the listing is the whole view, in order |
| Redemption.ListAppend | src/voucher/voucher.service.spec.ts:454-481 | Listing a concatenation lists each part in turn, so view order is kept |
| Redemption.ListEmpty | src/voucher/voucher.service.spec.ts:483-496 | With no listable row the listing is empty |
| Redemption.ExampleRedeem | src/voucher/voucher.service.spec.ts:348-398 | A coupon a day ahead yields discount 10 and is marked used; a day behind it has expired; with no row it is not valid |

## Left out

- Bloom filter hashing, sizing and false positives: these are floating-point behaviour inside the `bloom-filters` library. `has` is modelled as exact membership in the inserted set, one behaviour the library allows. The sizing arguments (one million items, a 0.01 rate) are not modelled.
- Upper-casing is modelled for ASCII only; a UUID draw contains nothing else.
- Concurrency: the fire-and-forget `processCoupons` call, concurrent gate calls and concurrent redemptions are not modelled. Gate calls, sweeps and redemptions are taken one after the other, and the handoff is returned as data. Because the `used` update of `verifyCoupon` runs outside the lookup's transaction, nothing stops two concurrent redemptions of one voucher: both can read `used = false` and both return the discount. `Redemption.RedeemTwice` covers only the sequential case.
- Sequelize isolation levels and the unawaited `t.rollback()`: a failed gate or page transaction is one atomic step that leaves the tables as they were. Commit failures are modelled for the gate and for redemption; a page transaction's commit failure is folded into `BulkCreateFails`, which has the same effect.
- `uuid.v4` and `moment` are parameters: a sequence of draws and a `nat` of seconds.
- Expiry is a `nat`. The column is a string compared lexicographically, which agrees with numeric order only for timestamps of equal length.
- Redemption treats `expiry <= now` as expired. The tests pin only expiries a day ahead and a day behind; the listing's strict `>` is the other half of this boundary.
- Controllers, the exception filter, logging, `delay`, config and bootstrap are not modelled. A rejected gate call is returned as a `Failure`; the controller's translation of it into an HTTP 500 is not modelled.
- Pagination.PageCalls: requires the page size `voucherLimit` to be positive, which the configuration does not guarantee. It is `Number(process.env.CUSTOMER_VOUCHER_LIMIT)` (src/env.ts:18). With 0 or a negative value and at least one customer, the page loop never ends, because `i` never grows. When the variable is unset the size is `NaN`: `customerCount < NaN` is false, and the loop condition `0 < customerCount` holds for at least one customer. The sweep then makes exactly one page call with limit `NaN`, because `i += NaN` makes `i` `NaN` and the next test fails. If that call succeeds, the job is reset to "inActive". With no customers it makes no page call and still resets the job. None of this is modelled.
- Pagination.FindAll: assumes the customer table has one fixed row order, shared by every page call. `findAll` passes no `order`, and each page runs in its own transaction, so the database does not promise that the pages partition the table. "Every customer exactly once, in order" (`Pagination.PageCallsCover`, `Batch.SweepMintsEveryCustomer`) holds only under this assumption.
- `usedDate` and timestamps are not modelled.
- Batch.NewVoucher: takes a fresh voucher as `used = false`, which the code does not do. The insert at src/voucher/voucher.service.ts:114-119 omits `used`. The column is `allowNull: false` with no default (src/voucher/interfaces/voucher.interface.ts:34-37), and `dbAdapter.sync()` (src/database/database.service.ts:7) creates the table from that definition. The bulk insert as written is therefore likely rejected on every non-empty page, which the model would see as `BulkCreateFails`. The model instead assumes the insert succeeds with `used` false.
- Customer and special-offer creation are single-row inserts and are not modelled.
- Generator.GenerateUnique: requires at least ten draws. The random source never runs out, and the bound keeps the model total.
- Batch.ProcessCoupons: requires one draw per customer, for the same reason.
- Redemption.FindOne: the view's `findOne` is taken to return the first matching row in view order. The database gives no order.
- Membership.OnModuleInit: any previous filter is replaced, as `BloomFilter.create` does.
- Redemption.RedeemedNotListed: assumes a code identifies one voucher per email (`CodesIdentify`). Without it, a second voucher with the same code and email stays listed after the first is redeemed.
- Redemption.RetryAfterFailedCommit: the retry's "Coupon is not valid" assumes a code identifies one voucher per email (`CodesIdentify`). Without it, the retry can redeem a second voucher with the same code and email. `Redemption.CommitFailureSpendsVoucher`, that the rejected call leaves the voucher used, needs no such assumption.
- Redemption.RedeemTwice: assumes a code identifies one voucher per email (`CodesIdentify`). Nothing in the schema enforces this, and the case mismatch above means the generator does not guarantee it after a restart.

=== FILE: batch.dfy ===
/**
  The batch sweep that mints one voucher per customer. It counts the
  customers, walks the page calls, and for every page fetches the customers
  and inserts one fresh voucher per customer in one bulk call, as one
  transaction per page. When the population is at least one page it resets
  the job to "inActive" afterwards.

  A failing page is not caught by the page routine: the error reaches the
  sweep's own catch, so the remaining pages are skipped and the job is not
  reset. Each voucher's code is the canonical form of one UUID draw; the
  draws are consumed in customer order.
 */
module Batch {
  import opened Wrappers
  import opened Canonical
  import opened Records
  import opened JobGate
  import opened Pagination

  /** Which database call of one page's transaction fails, if any. */
  datatype PageFault = NoPageFault | FindAllFails | BulkCreateFails

  /** The fault of page `k`; pages beyond the listed faults succeed. */
  function FaultAt(faults: seq<PageFault>, k: nat): PageFault {
    if k < |faults| then faults[k] else NoPageFault
  }

  /** The faults of the pages after the first. */
  function LaterFaults(faults: seq<PageFault>): (r: seq<PageFault>)
    ensures forall k: nat :: FaultAt(r, k) == FaultAt(faults, k + 1)
  {
    if |faults| == 0 then [] else faults[1..]
  }

  /**
    The voucher inserted for one customer. The insert leaves `used` unset
    although the column is non-null; the model takes it as false.
   */
  function NewVoucher(c: Customer, offerId: string, expiry: nat, uuid: string): (v: Voucher)
    ensures v.customerId == c.id && v.offerId == offerId && v.expiry == expiry
    ensures !v.used
    ensures IsCanonical(v.code)
  {
    Voucher(Canonicalise(uuid), c.id, offerId, expiry, false)
  }

  /** The vouchers of one bulk insert: customer `i` gets the code of draw `i`. */
  function MintVouchers(cs: seq<Customer>, offerId: string, expiry: nat, draws: seq<string>): (vs: seq<Voucher>)
    requires |draws| >= |cs|
    ensures |vs| == |cs|
    ensures forall i :: 0 <= i < |cs| ==> vs[i] == NewVoucher(cs[i], offerId, expiry, draws[i])
  {
    seq(|cs|, i requires 0 <= i < |cs| => NewVoucher(cs[i], offerId, expiry, draws[i]))
  }

  /**
    One page transaction: fetch the page's customers, insert one voucher per
    customer, commit. A failing call leaves the voucher table as it was.
   */
  function CreateForPage(customers: seq<Customer>, table: seq<Voucher>, offerId: string, expiry: nat,
                         p: Page, draws: seq<string>, fault: PageFault): (r: Result<seq<Voucher>, PageFault>)
    requires |draws| >= |FindAll(customers, p)|
    ensures r.Failure? <==> !fault.NoPageFault?
    ensures r.Failure? ==> r.error == fault
    ensures r.Success? ==> |r.value| == |table| + |FindAll(customers, p)| && r.value[..|table|] == table
    ensures r.Success? ==> OwnerIds(r.value[|table|..]) == CustomerIds(FindAll(customers, p))
  {
    match fault
    case NoPageFault =>
      var vs := MintVouchers(FindAll(customers, p), offerId, expiry, draws);
      assert (table + vs)[..|table|] == table && (table + vs)[|table|..] == vs;
      Success(table + vs)
    case _ => Failure(fault)
  }

  /** The outcome of walking a list of pages: the voucher table, how many pages committed, and whether one failed. */
  datatype PagesRun = PagesRun(table: seq<Voucher>, committed: nat, failed: bool)

  /** Page transactions one after the other; the first failing page ends the walk. */
  function RunPages(customers: seq<Customer>, table: seq<Voucher>, pages: seq<Page>, offerId: string, expiry: nat,
                    draws: seq<string>, faults: seq<PageFault>): (r: PagesRun)
    requires |draws| >= |Slices(customers, pages)|
    ensures r.committed <= |pages|
    ensures forall k :: 0 <= k < r.committed ==> FaultAt(faults, k).NoPageFault?
    ensures r.failed <==> r.committed < |pages|
    ensures r.failed ==> !FaultAt(faults, r.committed).NoPageFault?
    decreases |pages|
  {
    if |pages| == 0 then PagesRun(table, 0, false)
    else
      var n := |FindAll(customers, pages[0])|;
      match CreateForPage(customers, table, offerId, expiry, pages[0], draws, FaultAt(faults, 0))
      case Failure(_) => PagesRun(table, 0, true)
      case Success(next) =>
        var rest := RunPages(customers, next, pages[1..], offerId, expiry, draws[n..], LaterFaults(faults));
        assert forall k :: 0 < k <= rest.committed ==> FaultAt(faults, k) == FaultAt(LaterFaults(faults), k - 1);
        PagesRun(rest.table, rest.committed + 1, rest.failed)
  }

  /** The faults that can hit one sweep. */
  datatype SweepFault = SweepFault(countFails: bool, pageFaults: seq<PageFault>, resetFails: bool)

  /** No call of the sweep fails. */
  const NoSweepFault := SweepFault(false, [], false)

  /**
    What one sweep leaves behind: the voucher table and job table, the page
    calls it attempted, how many of them committed, and whether it reset the
    job to "inActive".
   */
  datatype Sweep = Sweep(vouchers: seq<Voucher>, jobs: JobTable, calls: seq<Page>, committed: nat, reset: bool)

  /** True when none of the given pages fails. */
  predicate PagesSucceed(pages: seq<Page>, faults: seq<PageFault>) {
    forall k :: 0 <= k < |pages| ==> FaultAt(faults, k).NoPageFault?
  }

  /** One sweep over the customer table with page size `limit`. */
  function ProcessCoupons(customers: seq<Customer>, vouchers: seq<Voucher>, jobs: JobTable, limit: nat,
                          offerId: string, expiry: nat, draws: seq<string>, fault: SweepFault): (s: Sweep)
    requires limit > 0 && |draws| >= |customers|
    ensures fault.countFails ==> s == Sweep(vouchers, jobs, [], 0, false)
    ensures !fault.countFails ==> s.calls <= PageCalls(|customers|, limit)
    ensures s.committed <= |s.calls|
    ensures s.reset <==>
              && !fault.countFails
              && |customers| >= limit
              && PagesSucceed(PageCalls(|customers|, limit), fault.pageFaults)
              && !fault.resetFails
    ensures s.jobs == if s.reset then jobs[JobName := InactiveStatus] else jobs
    ensures |s.vouchers| >= |vouchers| && s.vouchers[..|vouchers|] == vouchers
  {
    if fault.countFails then Sweep(vouchers, jobs, [], 0, false)
    else
      var pages := PageCalls(|customers|, limit);
      PageCallsCover(customers, limit);
      var run := RunPages(customers, vouchers, pages, offerId, expiry, draws, fault.pageFaults);
      RunPagesTable(customers, vouchers, pages, offerId, expiry, draws, fault.pageFaults);
      var attempted := if run.failed then run.committed + 1 else run.committed;
      var reset := |customers| >= limit && !run.failed && !fault.resetFails;
      Sweep(run.table, if reset then jobs[JobName := InactiveStatus] else jobs, pages[..attempted], run.committed, reset)
  }

  /** Minting a concatenation is minting each part, the second with the draws the first left over. */
  lemma MintAppend(a: seq<Customer>, b: seq<Customer>, offerId: string, expiry: nat, draws: seq<string>)
    requires |draws| >= |a| + |b|
    ensures MintVouchers(a + b, offerId, expiry, draws) ==
            MintVouchers(a, offerId, expiry, draws) + MintVouchers(b, offerId, expiry, draws[|a|..])
  {
  }

  /** Fetching the first page and then the next `c` pages is fetching the first `c + 1` pages. */
  lemma SlicesPrefixStep(customers: seq<Customer>, pages: seq<Page>, c: nat)
    requires c < |pages|
    ensures Slices(customers, pages[..c + 1]) == FindAll(customers, pages[0]) + Slices(customers, pages[1..][..c])
  {
    assert pages[..c + 1][0] == pages[0];
    assert pages[..c + 1][1..] == pages[1..][..c];
  }

  /** The table after a walk is `table` followed by the vouchers of the committed pages' customers. */
  predicate AppendsCommitted(customers: seq<Customer>, table: seq<Voucher>, pages: seq<Page>,
                             offerId: string, expiry: nat, draws: seq<string>, r: PagesRun)
    requires r.committed <= |pages|
  {
    && |Slices(customers, pages[..r.committed])| <= |draws|
    && r.table == table + MintVouchers(Slices(customers, pages[..r.committed]), offerId, expiry, draws)
  }

  /**
    Walking the pages appends to the table exactly the vouchers of the
    committed pages' customers, in page order, with the draws in order.
   */
  lemma {:induction false} RunPagesTable(customers: seq<Customer>, table: seq<Voucher>, pages: seq<Page>,
                                         offerId: string, expiry: nat, draws: seq<string>, faults: seq<PageFault>)
    requires |draws| >= |Slices(customers, pages)|
    ensures AppendsCommitted(customers, table, pages, offerId, expiry, draws,
                             RunPages(customers, table, pages, offerId, expiry, draws, faults))
    decreases |pages|
  {
    var r := RunPages(customers, table, pages, offerId, expiry, draws, faults);
    if |pages| == 0 || !FaultAt(faults, 0).NoPageFault? {
      assert pages[..0] == [];
      assert table + [] == table;
    } else {
      var n := |FindAll(customers, pages[0])|;
      var next := table + MintVouchers(FindAll(customers, pages[0]), offerId, expiry, draws);
      var rest := RunPages(customers, next, pages[1..], offerId, expiry, draws[n..], LaterFaults(faults));
      assert r == PagesRun(rest.table, rest.committed + 1, rest.failed);
      RunPagesTable(customers, next, pages[1..], offerId, expiry, draws[n..], LaterFaults(faults));
      CommitStep(customers, table, pages, offerId, expiry, draws, rest.committed, rest.table);
    }
  }

  /** One committed page followed by `c` more gives the table of the first `c + 1` pages. */
  lemma CommitStep(customers: seq<Customer>, table: seq<Voucher>, pages: seq<Page>, offerId: string, expiry: nat,
                   draws: seq<string>, c: nat, after: seq<Voucher>)
    requires c < |pages| && |FindAll(customers, pages[0])| <= |draws|
    requires var n := |FindAll(customers, pages[0])|;
             && |Slices(customers, pages[1..][..c])| <= |draws[n..]|
             && after == table + MintVouchers(FindAll(customers, pages[0]), offerId, expiry, draws) +
                         MintVouchers(Slices(customers, pages[1..][..c]), offerId, expiry, draws[n..])
    ensures |Slices(customers, pages[..c + 1])| <= |draws|
    ensures after == table + MintVouchers(Slices(customers, pages[..c + 1]), offerId, expiry, draws)
  {
    SlicesPrefixStep(customers, pages, c);
    AppendMinted(table, FindAll(customers, pages[0]), Slices(customers, pages[1..][..c]), offerId, expiry, draws, after);
  }

  /** Appending the vouchers of `a` and then those of `b` appends the vouchers of `a + b`. */
  lemma AppendMinted(table: seq<Voucher>, a: seq<Customer>, b: seq<Customer>, offerId: string, expiry: nat,
                     draws: seq<string>, after: seq<Voucher>)
    requires |a| + |b| <= |draws|
    requires after == table + MintVouchers(a, offerId, expiry, draws) + MintVouchers(b, offerId, expiry, draws[|a|..])
    ensures after == table + MintVouchers(a + b, offerId, expiry, draws)
  {
  }

  /**
    A sweep whose count and pages succeed gives every customer exactly one
    voucher, in customer order, coded from the draws in order, whether or not
    the final reset fails.
   */
  lemma SweepMintsEveryCustomer(customers: seq<Customer>, vouchers: seq<Voucher>, jobs: JobTable, limit: nat,
                                offerId: string, expiry: nat, draws: seq<string>, resetFails: bool)
    requires limit > 0 && |draws| >= |customers|
    ensures var s := ProcessCoupons(customers, vouchers, jobs, limit, offerId, expiry, draws, SweepFault(false, [], resetFails));
            && s.vouchers == vouchers + MintVouchers(customers, offerId, expiry, draws)
            && OwnerIds(s.vouchers[|vouchers|..]) == CustomerIds(customers)
            && s.calls == PageCalls(|customers|, limit)
            && s.committed == |s.calls|
  {
    var pages := PageCalls(|customers|, limit);
    PageCallsCover(customers, limit);
    RunPagesTable(customers, vouchers, pages, offerId, expiry, draws, []);
    var s := ProcessCoupons(customers, vouchers, jobs, limit, offerId, expiry, draws, SweepFault(false, [], resetFails));
    assert pages[..|pages|] == pages;
    var added := MintVouchers(customers, offerId, expiry, draws);
    assert s.vouchers[|vouchers|..] == added;
  }

  /**
    A population smaller than the page size is fetched as one page of
    `count` rows at offset 0, and the job is never reset.
   */
  lemma SmallPopulationNoReset(customers: seq<Customer>, vouchers: seq<Voucher>, jobs: JobTable, limit: nat,
                               offerId: string, expiry: nat, draws: seq<string>, fault: SweepFault)
    requires limit > 0 && |draws| >= |customers| && |customers| < limit
    ensures var s := ProcessCoupons(customers, vouchers, jobs, limit, offerId, expiry, draws, fault);
            !s.reset && s.jobs == jobs &&
            (!fault.countFails ==> s.calls == [Page(|customers|, 0)])
  {
  }

  /**
    The first failing page ends the sweep: the pages before it are
    committed, nothing of it or after it is, and the job is not reset.
   */
  lemma PageFailureAborts(customers: seq<Customer>, vouchers: seq<Voucher>, jobs: JobTable, limit: nat,
                          offerId: string, expiry: nat, draws: seq<string>, fault: SweepFault, k: nat)
    requires limit > 0 && |draws| >= |customers| && !fault.countFails
    requires k < |PageCalls(|customers|, limit)|
    requires forall j :: 0 <= j < k ==> FaultAt(fault.pageFaults, j).NoPageFault?
    requires !FaultAt(fault.pageFaults, k).NoPageFault?
    ensures var s := ProcessCoupons(customers, vouchers, jobs, limit, offerId, expiry, draws, fault);
            var pages := PageCalls(|customers|, limit);
            && s.committed == k
            && s.calls == pages[..k + 1]
            && |Slices(customers, pages[..k])| <= |draws|
            && s.vouchers == vouchers + MintVouchers(Slices(customers, pages[..k]), offerId, expiry, draws)
            && s.jobs == jobs
  {
    var pages := PageCalls(|customers|, limit);
    PageCallsCover(customers, limit);
    RunPagesTable(customers, vouchers, pages, offerId, expiry, draws, fault.pageFaults);
  }

  /** A failing count runs no page and leaves both tables as they were. */
  lemma CountFailureChangesNothing(customers: seq<Customer>, vouchers: seq<Voucher>, jobs: JobTable, limit: nat,
                                   offerId: string, expiry: nat, draws: seq<string>, pageFaults: seq<PageFault>, resetFails: bool)
    requires limit > 0 && |draws| >= |customers|
    ensures var s := ProcessCoupons(customers, vouchers, jobs, limit, offerId, expiry, draws,
                                    SweepFault(true, pageFaults, resetFails));
            s.calls == [] && s.vouchers == vouchers && s.jobs == jobs && !s.reset
  {
  }

  /**
    The gate and a fault-free sweep together: a population of at least one
    page reopens the gate afterwards, a smaller one leaves the job "Active"
    so every later gate call answers "Active".
   */
  lemma GateAfterSweep(customers: seq<Customer>, vouchers: seq<Voucher>, jobs: JobTable, limit: nat,
                       offerId: string, expiry: nat, draws: seq<string>, o2: string, e2: nat)
    requires limit > 0 && |draws| >= |customers|
    requires StartIfIdle(jobs, offerId, expiry, NoGateFault).value.status == Started
    ensures var g := StartIfIdle(jobs, offerId, expiry, NoGateFault).value;
            var s := ProcessCoupons(customers, vouchers, g.jobs, limit, offerId, expiry, draws, NoSweepFault);
            (|customers| >= limit ==> StartIfIdle(s.jobs, o2, e2, NoGateFault).value.status == Started) &&
            (|customers| < limit ==> StartIfIdle(s.jobs, o2, e2, NoGateFault).value.status == AlreadyActive)
  {
  }

  /** 250 customers, page size 100, no faults: three pages at offsets 0, 100 and 200, and the job is reset. */
  lemma Example250Sweep(customers: seq<Customer>, vouchers: seq<Voucher>, jobs: JobTable,
                        offerId: string, expiry: nat, draws: seq<string>)
    requires |customers| == 250 && |draws| >= 250
    ensures var s := ProcessCoupons(customers, vouchers, jobs, 100, offerId, expiry, draws, NoSweepFault);
            s.calls == [Page(100, 0), Page(100, 100), Page(100, 200)] && s.reset &&
            s.jobs == jobs[JobName := InactiveStatus]
  {
  }
}

=== FILE: canonical.dfy ===
/**
  The voucher code canonicaliser: a UUID string loses its `-` separators and
  is upper-cased. `StripHyphens` alone yields the key the membership filter is
  probed with; `Canonicalise` yields the stored and returned code.
 */
module Canonical {

  const Hyphen: char := '-'

  predicate IsLower(c: char) {
    'a' <= c <= 'z'
  }

  predicate IsHexDigit(c: char) {
    '0' <= c <= '9' || 'a' <= c <= 'f' || 'A' <= c <= 'F'
  }

  /** Upper-case hexadecimal digit, the alphabet of an issued code. */
  predicate IsCodeChar(c: char) {
    '0' <= c <= '9' || 'A' <= c <= 'F'
  }

  /** Upper-casing of one character, restricted to ASCII letters. */
  function UpperChar(c: char): (u: char)
    ensures !IsLower(u)
    ensures !IsLower(c) ==> u == c
    ensures IsLower(c) ==> 'A' <= u <= 'Z' && u as int + 32 == c as int
  {
    if IsLower(c) then (c as int - 32) as char else c
  }

  /** Number of separators in `s`. */
  function HyphenCount(s: string): nat
  {
    if |s| == 0 then 0
    else (if s[0] == Hyphen then 1 else 0) + HyphenCount(s[1..])
  }

  /** `s` with every separator removed, the other characters kept in order. */
  function StripHyphens(s: string): (r: string)
    ensures |r| == |s| - HyphenCount(s)
    ensures Hyphen !in r
  {
    if |s| == 0 then []
    else if s[0] == Hyphen then StripHyphens(s[1..])
    else [s[0]] + StripHyphens(s[1..])
  }

  /** Stripping keeps every other character, as often as it occurs. */
  lemma {:induction false} StripKeepsOthers(s: string)
    ensures forall c :: c != Hyphen ==> multiset(StripHyphens(s))[c] == multiset(s)[c]
    decreases |s|
  {
    if |s| > 0 {
      StripKeepsOthers(s[1..]);
      assert s == [s[0]] + s[1..];
      assert multiset(s) == multiset{s[0]} + multiset(s[1..]);
    }
  }

  /** Every character of `s` upper-cased, position by position. */
  function ToUpper(s: string): (r: string)
    ensures |r| == |s|
    ensures forall i :: 0 <= i < |s| ==> r[i] == UpperChar(s[i])
  {
    seq(|s|, i requires 0 <= i < |s| => UpperChar(s[i]))
  }

  /** A code as the generator returns it: no separator, no lower-case letter. */
  predicate IsCanonical(s: string) {
    forall i :: 0 <= i < |s| ==> s[i] != Hyphen && !IsLower(s[i])
  }

  /** The code derived from one UUID draw. */
  function Canonicalise(uuid: string): (code: string)
    ensures IsCanonical(code)
    ensures |code| == |uuid| - HyphenCount(uuid)
  {
    var key := StripHyphens(uuid);
    assert forall i :: 0 <= i < |key| ==> key[i] != Hyphen by {
      forall i | 0 <= i < |key| ensures key[i] != Hyphen {
        assert key[i] in key;
      }
    }
    ToUpper(key)
  }

  /** Stripping distributes over concatenation: it removes separators and nothing else moves. */
  lemma {:induction false} StripConcat(a: string, b: string)
    ensures StripHyphens(a + b) == StripHyphens(a) + StripHyphens(b)
    decreases |a|
  {
    if |a| == 0 {
      assert a + b == b;
    } else {
      assert (a + b)[1..] == a[1..] + b;
      StripConcat(a[1..], b);
    }
  }

  /** A string without separators is left untouched by stripping. */
  lemma {:induction false} StripNoHyphen(s: string)
    requires Hyphen !in s
    ensures StripHyphens(s) == s
    decreases |s|
  {
    if |s| > 0 {
      assert s[0] != Hyphen;
      assert Hyphen !in s[1..] by {
        forall i | 0 <= i < |s[1..]| ensures s[1..][i] != Hyphen {
          assert s[1..][i] == s[i + 1];
        }
      }
      StripNoHyphen(s[1..]);
      assert s == [s[0]] + s[1..];
    }
  }

  /** Upper-casing and stripping commute, because upper-casing never creates or removes a separator. */
  lemma {:induction false} UpperStripCommute(s: string)
    ensures ToUpper(StripHyphens(s)) == StripHyphens(ToUpper(s))
    decreases |s|
  {
    if |s| > 0 {
      UpperStripCommute(s[1..]);
      var u := ToUpper(s);
      assert u[1..] == ToUpper(s[1..]);
      assert u[0] == Hyphen <==> s[0] == Hyphen;
      if s[0] != Hyphen {
        assert ToUpper([s[0]] + StripHyphens(s[1..])) == [u[0]] + ToUpper(StripHyphens(s[1..]));
      }
    }
  }

  /** Canonical codes are fixed points of the canonicaliser. */
  lemma CanonicalIsFixed(s: string)
    requires IsCanonical(s)
    ensures Canonicalise(s) == s
  {
    assert Hyphen !in s by {
      forall i | 0 <= i < |s| ensures s[i] != Hyphen { }
    }
    StripNoHyphen(s);
  }

  /** Canonicalising a code a second time changes nothing. */
  lemma CanonicaliseIdempotent(uuid: string)
    ensures Canonicalise(Canonicalise(uuid)) == Canonicalise(uuid)
  {
    CanonicalIsFixed(Canonicalise(uuid));
  }

  /** The separator-free key differs from the code exactly when it holds a lower-case letter. */
  lemma KeyDiffersFromCode(uuid: string)
    ensures StripHyphens(uuid) != Canonicalise(uuid) <==>
              exists i :: 0 <= i < |StripHyphens(uuid)| && IsLower(StripHyphens(uuid)[i])
  {
  }

  /** The textual shape `uuid.v4` produces: 8-4-4-4-12 hexadecimal digits. */
  predicate IsUuid(s: string) {
    && |s| == 36
    && (forall i :: 0 <= i < 36 ==> (s[i] == Hyphen <==> i in {8, 13, 18, 23}))
    && (forall i :: 0 <= i < 36 && i !in {8, 13, 18, 23} ==> IsHexDigit(s[i]))
  }

  /** Every character of a hexadecimal string is a code character after upper-casing. */
  lemma UpperHexIsCode(s: string)
    requires forall i :: 0 <= i < |s| ==> IsHexDigit(s[i])
    ensures forall i :: 0 <= i < |s| ==> IsCodeChar(ToUpper(s)[i])
  {
  }

  /** Stripping a string whose first separator sits at `k`: the prefix is kept and stripping continues after it. */
  lemma StripAt(s: string, k: nat)
    requires k < |s| && s[k] == Hyphen && Hyphen !in s[..k]
    ensures StripHyphens(s) == s[..k] + StripHyphens(s[k + 1..])
  {
    assert s == s[..k] + ([s[k]] + s[k + 1..]);
    StripConcat(s[..k], [s[k]] + s[k + 1..]);
    StripConcat([s[k]], s[k + 1..]);
    StripNoHyphen(s[..k]);
  }

  /** The filter key of a UUID draw is its five digit groups laid end to end. */
  lemma UuidKey(u: string)
    requires IsUuid(u)
    ensures StripHyphens(u) == u[..8] + u[9..13] + u[14..18] + u[19..23] + u[24..]
  {
    assert u[8] == Hyphen && u[13] == Hyphen && u[18] == Hyphen && u[23] == Hyphen;
    assert Hyphen !in u[..8] by {
      forall i | 0 <= i < 8 ensures u[..8][i] != Hyphen {
        assert u[..8][i] == u[i];
      }
    }
    assert Hyphen !in u[9..13] by {
      forall i | 0 <= i < 4 ensures u[9..13][i] != Hyphen {
        assert u[9..13][i] == u[9 + i];
      }
    }
    assert Hyphen !in u[14..18] by {
      forall i | 0 <= i < 4 ensures u[14..18][i] != Hyphen {
        assert u[14..18][i] == u[14 + i];
      }
    }
    assert Hyphen !in u[19..23] by {
      forall i | 0 <= i < 4 ensures u[19..23][i] != Hyphen {
        assert u[19..23][i] == u[19 + i];
      }
    }
    assert Hyphen !in u[24..] by {
      forall i | 0 <= i < 12 ensures u[24..][i] != Hyphen {
        assert u[24..][i] == u[24 + i];
      }
    }
    GroupsKey(u);
  }

  /** Stripping a 36-character string with separators at 8, 13, 18 and 23 only. */
  lemma GroupsKey(u: string)
    requires |u| == 36 && u[8] == Hyphen && u[13] == Hyphen && u[18] == Hyphen && u[23] == Hyphen
    requires Hyphen !in u[..8] && Hyphen !in u[9..13] && Hyphen !in u[14..18] && Hyphen !in u[19..23] && Hyphen !in u[24..]
    ensures StripHyphens(u) == u[..8] + u[9..13] + u[14..18] + u[19..23] + u[24..]
  {
    var v1, v2, v3, v4 := u[9..], u[14..], u[19..], u[24..];
    StripAt(u, 8);
    assert v1[..4] == u[9..13] && v1[5..] == v2;
    StripAt(v1, 4);
    assert v2[..4] == u[14..18] && v2[5..] == v3;
    StripAt(v2, 4);
    assert v3[..4] == u[19..23] && v3[5..] == v4;
    StripAt(v3, 4);
    StripNoHyphen(v4);
  }

  /** A UUID draw yields a 32-character upper-case hexadecimal code. */
  lemma UuidCodeShape(uuid: string)
    requires IsUuid(uuid)
    ensures |Canonicalise(uuid)| == 32
    ensures forall i :: 0 <= i < 32 ==> IsCodeChar(Canonicalise(uuid)[i])
  {
    UuidKey(uuid);
    StripKeepsOthers(uuid);
    var key := StripHyphens(uuid);
    forall i | 0 <= i < |key| ensures IsHexDigit(key[i]) {
      assert multiset(key)[key[i]] > 0;
      assert key[i] in uuid;
    }
    UpperHexIsCode(key);
  }

  /** Upper-casing works character by character, so it distributes over concatenation. */
  lemma UpperConcat(x: string, y: string)
    ensures ToUpper(x + y) == ToUpper(x) + ToUpper(y)
  {
  }

  /** A separator-free group followed by a separator strips to the group itself. */
  lemma StripGroup(a: string, rest: string)
    requires Hyphen !in a
    ensures StripHyphens(a + [Hyphen] + rest) == a + StripHyphens(rest)
  {
    var s := a + [Hyphen] + rest;
    assert s[..|a|] == a && s[|a| + 1..] == rest;
    StripAt(s, |a|);
  }

  /** The code of a five-group UUID is its groups, each upper-cased, laid end to end. */
  lemma GroupedCode(u: string, a: string, b: string, c: string, d: string, e: string)
    requires u == a + [Hyphen] + (b + [Hyphen] + (c + [Hyphen] + (d + [Hyphen] + e)))
    requires Hyphen !in a && Hyphen !in b && Hyphen !in c && Hyphen !in d && Hyphen !in e
    ensures Canonicalise(u) == ToUpper(a) + ToUpper(b) + ToUpper(c) + ToUpper(d) + ToUpper(e)
  {
    StripGroup(a, b + [Hyphen] + (c + [Hyphen] + (d + [Hyphen] + e)));
    StripGroup(b, c + [Hyphen] + (d + [Hyphen] + e));
    StripGroup(c, d + [Hyphen] + e);
    StripGroup(d, e);
    StripNoHyphen(e);
    assert StripHyphens(u) == a + (b + (c + (d + e)));
    UpperConcat(a, b + (c + (d + e)));
    UpperConcat(b, c + (d + e));
    UpperConcat(c, d + e);
    UpperConcat(d, e);
  }

  /** The groups of the test UUID. */
  lemma ExampleGroups(u: string, a: string, b: string, c: string, d: string, e: string)
    requires u == "a1b2c3d4-e5f6-7890-1234-567890abcdef"
    requires a == "a1b2c3d4" && b == "e5f6" && c == "7890" && d == "1234" && e == "567890abcdef"
    ensures u == a + [Hyphen] + (b + [Hyphen] + (c + [Hyphen] + (d + [Hyphen] + e)))
    ensures Hyphen !in a && Hyphen !in b && Hyphen !in c && Hyphen !in d && Hyphen !in e
  {
  }

  /** The groups of the test UUID, upper-cased and joined. */
  lemma ExampleUpper(a: string, b: string, c: string, d: string, e: string)
    requires a == "a1b2c3d4" && b == "e5f6" && c == "7890" && d == "1234" && e == "567890abcdef"
    ensures ToUpper(a) + ToUpper(b) + ToUpper(c) + ToUpper(d) + ToUpper(e) == "A1B2C3D4E5F678901234567890ABCDEF"
  {
  }

  /** The test vector: a1b2c3d4-e5f6-7890-1234-567890abcdef becomes A1B2C3D4E5F678901234567890ABCDEF. */
  lemma ExampleVector(u: string)
    requires u == "a1b2c3d4-e5f6-7890-1234-567890abcdef"
    ensures Canonicalise(u) == "A1B2C3D4E5F678901234567890ABCDEF"
  {
    ExampleGroups(u, "a1b2c3d4", "e5f6", "7890", "1234", "567890abcdef");
    GroupedCode(u, "a1b2c3d4", "e5f6", "7890", "1234", "567890abcdef");
    ExampleUpper("a1b2c3d4", "e5f6", "7890", "1234", "567890abcdef");
  }
}

=== FILE: generator.dfy ===
/**
  The bounded-retry coupon generator. Each attempt draws one UUID, probes the
  membership filter with the UUID stripped of separators (not upper-cased),
  and on the first key the filter does not report, adds that key to the
  filter and returns the upper-cased code. After ten reported collisions it
  fails without touching the filter.

  The random source is the sequence `draws`: attempt `j` uses `draws[j]`.
 */
module Generator {
  import opened Wrappers
  import opened Canonical
  import opened Records
  import opened Membership

  const MaxAttempts: nat := 10

  const ExhaustedMessage: string := "Failed to generate unique coupon"

  datatype GenError =
    | Exhausted          // every attempt collided
    | FilterUnavailable  // the filter was never initialised, so the first probe throws

  /**
    The message of the thrown error. Exhaustion throws the generator's own
    message; an uninitialised filter throws the runtime's error about the
    missing object, whose text is not the service's.
   */
  function GenErrorText(e: GenError): (t: Option<string>)
    ensures e == Exhausted <==> t == Some(ExhaustedMessage)
    ensures e == FilterUnavailable <==> t.None?
  {
    match e
    case Exhausted => Some(ExhaustedMessage)
    case FilterUnavailable => None
  }

  /** A generated code, the key registered for it, the updated filter and how many UUIDs were drawn. */
  datatype Coupon = Coupon(code: string, key: string, filter: Filter, drawn: nat)

  /** The first attempt in [from, bound) whose key is not among `items`. */
  function FirstAbsent(draws: seq<string>, items: set<string>, from: nat, bound: nat): (k: Option<nat>)
    requires from <= bound <= |draws|
    ensures k.Some? ==> from <= k.value < bound && StripHyphens(draws[k.value]) !in items
    ensures k.Some? ==> forall j :: from <= j < k.value ==> StripHyphens(draws[j]) in items
    ensures k.None? <==> forall j :: from <= j < bound ==> StripHyphens(draws[j]) in items
    decreases bound - from
  {
    if from == bound then None
    else if StripHyphens(draws[from]) !in items then Some(from)
    else FirstAbsent(draws, items, from + 1, bound)
  }

  /** One call of the generator. */
  function GenerateUnique(draws: seq<string>, f: Filter): (r: Result<Coupon, GenError>)
    requires |draws| >= MaxAttempts
    ensures f.None? ==> r == Failure(FilterUnavailable)
    ensures f.Some? ==> (r.Failure? <==> forall j :: 0 <= j < MaxAttempts ==> StripHyphens(draws[j]) in f.value)
    ensures f.Some? && r.Failure? ==> r.error == Exhausted
    ensures r.Success? ==>
              && 1 <= r.value.drawn <= MaxAttempts
              && r.value.key == StripHyphens(draws[r.value.drawn - 1])
              && r.value.key !in f.value
              && (forall j :: 0 <= j < r.value.drawn - 1 ==> StripHyphens(draws[j]) in f.value)
              && r.value.code == Canonicalise(draws[r.value.drawn - 1])
              && r.value.filter == Some(f.value + {r.value.key})
  {
    match f
    case None => Failure(FilterUnavailable)
    case Some(items) =>
      match FirstAbsent(draws, items, 0, MaxAttempts)
      case None => Failure(Exhausted)
      case Some(k) =>
        var key := StripHyphens(draws[k]);
        var added := Add(f, key);
        Success(Coupon(ToUpper(key), key, added.value, k + 1))
  }

  /**
    K reported collisions followed by an absent key: exactly K + 1 draws are
    used, only the last key is added, and its upper-cased form is returned.
   */
  lemma CollisionsThenFresh(draws: seq<string>, f: Filter, k: nat)
    requires |draws| >= MaxAttempts && f.Some? && k < MaxAttempts
    requires forall j :: 0 <= j < k ==> Has(f, StripHyphens(draws[j])) == Success(true)
    requires Has(f, StripHyphens(draws[k])) == Success(false)
    ensures GenerateUnique(draws, f) ==
              Success(Coupon(ToUpper(StripHyphens(draws[k])), StripHyphens(draws[k]),
                             Some(f.value + {StripHyphens(draws[k])}), k + 1))
  {
  }

  /** When every one of the ten probes reports a collision, generation fails and the filter is untouched. */
  lemma AllCollide(draws: seq<string>, f: Filter)
    requires |draws| >= MaxAttempts && f.Some?
    requires forall j :: 0 <= j < MaxAttempts ==> Has(f, StripHyphens(draws[j])) == Success(true)
    ensures GenerateUnique(draws, f) == Failure(Exhausted)
    ensures GenErrorText(GenerateUnique(draws, f).error) == Some("Failed to generate unique coupon")
  {
  }

  /** With the first key absent, the generator returns exactly the canonical form of the first draw. */
  lemma FirstDrawFresh(draws: seq<string>, f: Filter)
    requires |draws| >= MaxAttempts && f.Some? && StripHyphens(draws[0]) !in f.value
    ensures GenerateUnique(draws, f).Success?
    ensures GenerateUnique(draws, f).value.code == Canonicalise(draws[0])
    ensures GenerateUnique(draws, f).value.drawn == 1
  {
  }

  /** The key registered for a returned code tests present afterwards. */
  lemma RegisteredKeyPresent(draws: seq<string>, f: Filter)
    requires |draws| >= MaxAttempts
    requires GenerateUnique(draws, f).Success?
    ensures Has(GenerateUnique(draws, f).value.filter, GenerateUnique(draws, f).value.key) == Success(true)
  {
  }

  /**
    The code the generator returns is not what it registers: when the key
    holds a lower-case letter, adding the key leaves the code's own
    membership exactly as it was.
   */
  lemma ReturnedCodeNotRegistered(draws: seq<string>, f: Filter)
    requires |draws| >= MaxAttempts
    requires GenerateUnique(draws, f).Success?
    requires exists i :: 0 <= i < |GenerateUnique(draws, f).value.key| && IsLower(GenerateUnique(draws, f).value.key[i])
    ensures Has(GenerateUnique(draws, f).value.filter, GenerateUnique(draws, f).value.code) ==
            Has(f, GenerateUnique(draws, f).value.code)
  {
    var c := GenerateUnique(draws, f).value;
    KeyDiffersFromCode(draws[c.drawn - 1]);
  }

  /** The test's draw with an empty filter: the returned code tests absent afterwards. */
  lemma ExampleCodeAbsent(draws: seq<string>)
    requires |draws| >= MaxAttempts && draws[0] == "a1b2c3d4-e5f6-7890-1234-567890abcdef"
    ensures GenerateUnique(draws, Some({})).Success?
    ensures GenerateUnique(draws, Some({})).value.code == "A1B2C3D4E5F678901234567890ABCDEF"
    ensures Has(GenerateUnique(draws, Some({})).value.filter, "A1B2C3D4E5F678901234567890ABCDEF") == Success(false)
  {
    ExampleVector(draws[0]);
    var c := GenerateUnique(draws, Some({})).value;
    assert c.drawn == 1;
    assert c.key[0] == 'a' && IsLower(c.key[0]);
    ReturnedCodeNotRegistered(draws, Some({}));
  }

  /**
    Keys and codes differ in case: after a restart the filter holds the
    persisted upper-case codes, while probes use lower-case keys, so a draw
    whose code is already persisted is not detected and the persisted code
    is returned again.
   */
  lemma PersistedCodeNotDetected(u: string, rest: seq<string>, v: Voucher)
    requires |rest| >= MaxAttempts - 1
    requires v.code == Canonicalise(u)
    requires exists i :: 0 <= i < |StripHyphens(u)| && IsLower(StripHyphens(u)[i])
    ensures GenerateUnique([u] + rest, OnModuleInit(Some([v])).filter).Success?
    ensures GenerateUnique([u] + rest, OnModuleInit(Some([v])).filter).value.code == v.code
  {
  }
}

=== FILE: jobgate.dfy ===
/**
  The single-flight gate in front of voucher generation. It opens a
  transaction and reads the `voucherForAll` row of the job table; a status of
  exactly "Active" is reported back unchanged, anything else (including no
  row) is overwritten with "Active" and generation is handed off.

  Opening the transaction happens before the error handler is installed, so
  a failure there rejects the call instead of answering. A failing lookup,
  upsert or commit inside the handler rolls back, leaves the table as it was
  and answers "unable to create coupon at this time try aftersometime" -- a
  failing commit does so even when the row was already "Active".
 */
module JobGate {
  import opened Wrappers

  const JobName: string := "voucherForAll"
  const ActiveStatus: string := "Active"
  const InactiveStatus: string := "inActive"

  /** The job table keyed by its unique job name, mapping to the status column. */
  type JobTable = map<string, string>

  /** The three answers the gate gives its caller. */
  datatype GateStatus = AlreadyActive | Started | Unavailable

  /** The status string returned for each answer. */
  function StatusText(s: GateStatus): (t: string)
    ensures s == AlreadyActive <==> t == "Active"
    ensures s == Started <==> t == "success"
    ensures s == Unavailable <==> t == "unable to create coupon at this time try aftersometime"
  {
    match s
    case AlreadyActive => ActiveStatus
    case Started => "success"
    case Unavailable => "unable to create coupon at this time try aftersometime"
  }

  /** Which database call of the gate fails, if any. */
  datatype GateFault = NoGateFault | TransactionOpenFails | JobLookupFails | JobUpsertFails | CommitFails

  /** The generation request handed to the batch sweep. */
  datatype Handoff = Handoff(offerId: string, expiry: nat)

  datatype GateResult = GateResult(status: GateStatus, jobs: JobTable, handoff: Option<Handoff>)

  /** True when the job row exists and its status is exactly "Active". */
  predicate IsActive(jobs: JobTable) {
    JobName in jobs && jobs[JobName] == ActiveStatus
  }

  /**
    One call of the gate. A failure to open the transaction is the call's
    rejection; every other outcome is one of the three answers.
   */
  function StartIfIdle(jobs: JobTable, offerId: string, expiry: nat, fault: GateFault): (r: Result<GateResult, GateFault>)
    ensures r.Failure? <==> fault.TransactionOpenFails?
    ensures r.Failure? ==> r.error == TransactionOpenFails
    ensures r.Success? ==>
              (r.value.status == AlreadyActive <==> (fault.NoGateFault? || fault.JobUpsertFails?) && IsActive(jobs))
    ensures r.Success? ==> (r.value.status == Started <==> fault.NoGateFault? && !IsActive(jobs))
    ensures r.Success? && r.value.status == Started ==> r.value.jobs == jobs[JobName := ActiveStatus]
    ensures r.Success? && r.value.status != Started ==> r.value.jobs == jobs
    ensures r.Success? ==> (r.value.handoff.Some? <==> r.value.status == Started)
    ensures r.Success? && r.value.handoff.Some? ==> r.value.handoff.value == Handoff(offerId, expiry)
  {
    if fault.TransactionOpenFails? then Failure(TransactionOpenFails)
    else if fault.JobLookupFails? then
      Success(GateResult(Unavailable, jobs, None))
    else if IsActive(jobs) then
      if fault.CommitFails? then Success(GateResult(Unavailable, jobs, None))
      else Success(GateResult(AlreadyActive, jobs, None))
    else if fault.JobUpsertFails? || fault.CommitFails? then
      Success(GateResult(Unavailable, jobs, None))
    else
      Success(GateResult(Started, jobs[JobName := ActiveStatus], Some(Handoff(offerId, expiry))))
  }

  /** Unless the call answered "unable…", the job is active afterwards; other rows never change. */
  lemma GateLeavesJobActive(jobs: JobTable, offerId: string, expiry: nat, fault: GateFault)
    requires !fault.TransactionOpenFails?
    ensures var g := StartIfIdle(jobs, offerId, expiry, fault).value;
            g.status != Unavailable ==> IsActive(g.jobs)
    ensures var g := StartIfIdle(jobs, offerId, expiry, fault).value;
            forall name :: name != JobName ==> (name in g.jobs <==> name in jobs)
    ensures var g := StartIfIdle(jobs, offerId, expiry, fault).value;
            forall name :: name != JobName && name in jobs ==> g.jobs[name] == jobs[name]
  {
  }

  /**
    Two gate calls in a row never both start a sweep: once a call has
    started one, the next reports "Active" or fails, and starts nothing.
   */
  lemma SingleFlight(jobs: JobTable, o1: string, e1: nat, f1: GateFault, o2: string, e2: nat, f2: GateFault)
    requires StartIfIdle(jobs, o1, e1, f1).Success? && StartIfIdle(jobs, o1, e1, f1).value.status == Started
    ensures var g1 := StartIfIdle(jobs, o1, e1, f1).value;
            var g2 := StartIfIdle(g1.jobs, o2, e2, f2);
            g2.Success? ==> g2.value.status != Started && g2.value.handoff.None? && g2.value.jobs == g1.jobs
  {
  }

  /** Any status other than exactly "Active", such as "inActive", reopens the gate. */
  lemma InactiveReopens(jobs: JobTable, offerId: string, expiry: nat)
    requires JobName in jobs && jobs[JobName] == InactiveStatus
    ensures StartIfIdle(jobs, offerId, expiry, NoGateFault) ==
              Success(GateResult(Started, jobs[JobName := ActiveStatus], Some(Handoff(offerId, expiry))))
  {
  }

  /** A failing commit after an "Active" lookup still answers "unable…" and changes nothing. */
  lemma CommitFailureWhileActive(jobs: JobTable, offerId: string, expiry: nat)
    requires IsActive(jobs)
    ensures StartIfIdle(jobs, offerId, expiry, CommitFails) == Success(GateResult(Unavailable, jobs, None))
  {
  }
}

=== FILE: membership.dfy ===
/**
  The membership filter wrapper. The service holds either no filter (before
  start-up initialisation) or an insertion-only set of codes. The underlying
  probabilistic structure is modelled by the set of items inserted into it:
  `has` answers membership in that set, which is one behaviour its library
  contract allows (every inserted item tests present).
 */
module Membership {
  import opened Wrappers
  import opened Records

  /** `None` before initialisation, otherwise the inserted items. */
  type Filter = Option<set<string>>

  /** Calling into a filter that was never created fails. */
  datatype FilterError = NotInitialised

  /** What start-up initialisation leaves behind. */
  datatype InitOutcome = InitOutcome(filter: Filter, loadFailed: bool)

  /** Inserting an item. */
  function Add(f: Filter, item: string): (r: Result<Filter, FilterError>)
    ensures f.None? <==> r.Failure?
    ensures r.Success? ==> r.value.Some? && item in r.value.value
    ensures r.Success? ==> f.value <= r.value.value && r.value.value - f.value <= {item}
  {
    match f
    case None => Failure(NotInitialised)
    case Some(items) => Success(Some(items + {item}))
  }

  /** Asking whether an item may have been inserted. */
  function Has(f: Filter, item: string): (r: Result<bool, FilterError>)
    ensures f.None? <==> r.Failure?
    ensures r.Success? ==> (r.value <==> item in f.value)
  {
    match f
    case None => Failure(NotInitialised)
    case Some(items) => Success(item in items)
  }

  /** The start-up loop: every persisted voucher's code, added one after the other. */
  function LoadCodes(f: Filter, vs: seq<Voucher>): (r: Filter)
    requires f.Some?
    ensures r.Some?
    ensures forall i :: 0 <= i < |vs| ==> vs[i].code in r.value
    ensures forall x :: x in r.value ==> x in f.value || x in Codes(vs)
    ensures f.value <= r.value
    decreases |vs|
  {
    if |vs| == 0 then f
    else
      var next := Add(f, vs[0].code);
      LoadCodes(next.value, vs[1..])
  }

  /**
    Start-up initialisation: a fresh empty filter is installed first, then
    the persisted vouchers are read (`None` when that read fails, in which
    case the error propagates and the installed filter stays empty).
   */
  function OnModuleInit(persisted: Option<seq<Voucher>>): (o: InitOutcome)
    ensures o.filter.Some?
    ensures o.loadFailed <==> persisted.None?
    ensures persisted.None? ==> o.filter.value == {}
    ensures persisted.Some? ==> forall x :: x in o.filter.value <==> x in Codes(persisted.value)
  {
    match persisted
    case None => InitOutcome(Some({}), true)
    case Some(vs) =>
      var f := LoadCodes(Some({}), vs);
      assert forall x :: x in Codes(vs) ==> x in f.value by {
        forall x | x in Codes(vs) ensures x in f.value {
          var i :| 0 <= i < |vs| && Codes(vs)[i] == x;
        }
      }
      InitOutcome(f, false)
  }

  /** No false negatives: once added, an item always tests present. */
  lemma AddThenHas(f: Filter, item: string)
    requires f.Some?
    ensures Add(f, item).Success? && Has(Add(f, item).value, item) == Success(true)
  {
  }

  /** Adding never makes a present item absent: the filter is insertion-only. */
  lemma AddKeepsPresent(f: Filter, item: string, other: string)
    requires Has(f, other) == Success(true)
    ensures Add(f, item).Success? && Has(Add(f, item).value, other) == Success(true)
  {
  }

  /** Loading no persisted vouchers leaves the filter empty. */
  lemma EmptyLoad()
    ensures OnModuleInit(Some([])) == InitOutcome(Some({}), false)
  {
  }
}

=== FILE: pagination.dfy ===
/**
  The page calls of the batch sweep. A population smaller than the page size
  is fetched as one page of exactly `count` rows; otherwise pages of
  `limit` rows are requested at offsets 0, limit, 2*limit, ... while the
  offset is below `count`. Fetching a page returns the customers from
  `offset` up to `offset + limit`, clipped to the population.
 */
module Pagination {
  import opened Records

  /** The arguments of one page call. */
  datatype Page = Page(limit: nat, offset: nat)

  function Min(a: nat, b: nat): nat {
    if a <= b then a else b
  }

  /** The customers one page call fetches. */
  function FindAll(customers: seq<Customer>, p: Page): (r: seq<Customer>)
    ensures p.offset >= |customers| ==> |r| == 0
    ensures p.offset < |customers| ==> |r| == Min(p.limit, |customers| - p.offset)
    ensures forall i :: 0 <= i < |r| ==> r[i] == customers[p.offset + i]
  {
    customers[Min(p.offset, |customers|)..Min(p.offset + p.limit, |customers|)]
  }

  /** The page loop of the sweep, from the given offset on. */
  function LoopPages(count: nat, limit: nat, offset: nat): (r: seq<Page>)
    requires limit > 0
    ensures |r| == 0 <==> offset >= count
    decreases if offset < count then count - offset else 0
  {
    if offset >= count then []
    else [Page(limit, offset)] + LoopPages(count, limit, offset + limit)
  }

  /** Every page call the sweep makes for a population of `count` customers; `PageCallsShape` states their shape. */
  function PageCalls(count: nat, limit: nat): (p: seq<Page>)
    requires limit > 0
    ensures |p| > 0
  {
    if count < limit then [Page(count, 0)] else LoopPages(count, limit, 0)
  }

  /** The customers all the given page calls fetch, in call order. */
  function Slices(customers: seq<Customer>, pages: seq<Page>): seq<Customer>
  {
    if |pages| == 0 then []
    else FindAll(customers, pages[0]) + Slices(customers, pages[1..])
  }

  lemma MulStep(k: nat, m: nat)
    ensures (k + 1) * m == k * m + m
  {
  }

  /** The loop from `offset` requests pages of `limit` rows at offsets offset, offset + limit, ..., each below `count`. */
  lemma {:induction false} LoopPagesOffsets(count: nat, limit: nat, offset: nat)
    requires limit > 0
    ensures forall k :: 0 <= k < |LoopPages(count, limit, offset)| ==>
              LoopPages(count, limit, offset)[k] == Page(limit, offset + k * limit) &&
              LoopPages(count, limit, offset)[k].offset < count
    decreases if offset < count then count - offset else 0
  {
    if offset < count {
      var p := LoopPages(count, limit, offset);
      var rest := LoopPages(count, limit, offset + limit);
      LoopPagesOffsets(count, limit, offset + limit);
      assert p == [Page(limit, offset)] + rest;
      forall k | 0 <= k < |p|
        ensures p[k] == Page(limit, offset + k * limit) && p[k].offset < count
      {
        if k > 0 {
          var j := k - 1;
          assert p[k] == rest[j];
          assert rest[j] == Page(limit, offset + limit + j * limit) && rest[j].offset < count;
          MulStep(j, limit);
        }
      }
    }
  }

  /** The loop makes as many calls as it takes to reach `count`: the last page starts less than `limit` rows before it. */
  lemma {:induction false} LoopPagesCount(count: nat, limit: nat, offset: nat)
    requires limit > 0
    ensures var n := |LoopPages(count, limit, offset)|;
            offset < count ==> n > 0 && (n - 1) * limit < count - offset <= n * limit
    ensures offset >= count ==> LoopPages(count, limit, offset) == []
    decreases if offset < count then count - offset else 0
  {
    if offset < count {
      var n := |LoopPages(count, limit, offset)|;
      var m := |LoopPages(count, limit, offset + limit)|;
      LoopPagesCount(count, limit, offset + limit);
      assert n == m + 1;
      if offset + limit < count {
        assert (m - 1) * limit < count - offset - limit <= m * limit;
        MulStep(m - 1, limit);
        MulStep(m, limit);
      }
    }
  }

  /** The loop's offsets never fall below the starting offset and strictly increase. */
  lemma {:induction false} LoopPagesIncreasing(count: nat, limit: nat, offset: nat)
    requires limit > 0
    ensures forall k :: 0 <= k < |LoopPages(count, limit, offset)| ==> LoopPages(count, limit, offset)[k].offset >= offset
    ensures forall i, j :: 0 <= i < j < |LoopPages(count, limit, offset)| ==>
              LoopPages(count, limit, offset)[i].offset < LoopPages(count, limit, offset)[j].offset
    decreases if offset < count then count - offset else 0
  {
    if offset < count {
      var p := LoopPages(count, limit, offset);
      var rest := LoopPages(count, limit, offset + limit);
      LoopPagesIncreasing(count, limit, offset + limit);
      assert p == [Page(limit, offset)] + rest;
      assert forall k :: 0 < k < |p| ==> p[k] == rest[k - 1];
    }
  }

  /** The sweep's page calls: one page of `count` rows below the page size, the page loop otherwise. */
  lemma PageCallsShape(count: nat, limit: nat)
    requires limit > 0
    ensures count < limit ==> PageCalls(count, limit) == [Page(count, 0)]
    ensures count >= limit ==>
              var p := PageCalls(count, limit);
              && |p| > 0
              && (|p| - 1) * limit < count <= |p| * limit
              && (forall k :: 0 <= k < |p| ==> p[k] == Page(limit, k * limit))
              && (forall i, j :: 0 <= i < j < |p| ==> p[i].offset < p[j].offset)
  {
    LoopPagesOffsets(count, limit, 0);
    LoopPagesCount(count, limit, 0);
    LoopPagesIncreasing(count, limit, 0);
  }

  /** The page loop from `offset` fetches exactly the customers from `offset` on, each once, in order. */
  lemma {:induction false} LoopPagesCover(customers: seq<Customer>, limit: nat, offset: nat)
    requires limit > 0 && offset <= |customers|
    ensures Slices(customers, LoopPages(|customers|, limit, offset)) == customers[offset..]
    decreases |customers| - offset
  {
    var n := |customers|;
    if offset < n {
      var pages := LoopPages(n, limit, offset);
      assert pages[0] == Page(limit, offset) && pages[1..] == LoopPages(n, limit, offset + limit);
      if offset + limit < n {
        LoopPagesCover(customers, limit, offset + limit);
        assert customers[offset..] == customers[offset..offset + limit] + customers[offset + limit..];
      } else {
        assert LoopPages(n, limit, offset + limit) == [];
        assert FindAll(customers, Page(limit, offset)) == customers[offset..];
      }
    }
  }

  /** Whatever the page size, the sweep's page calls fetch every customer exactly once, in order. */
  lemma PageCallsCover(customers: seq<Customer>, limit: nat)
    requires limit > 0
    ensures Slices(customers, PageCalls(|customers|, limit)) == customers
  {
    if |customers| < limit {
      assert PageCalls(|customers|, limit) == [Page(|customers|, 0)];
      assert FindAll(customers, Page(|customers|, 0)) == customers;
      assert Slices(customers, [Page(|customers|, 0)]) == FindAll(customers, Page(|customers|, 0)) + [];
    } else {
      LoopPagesCover(customers, limit, 0);
    }
  }

  /** Fetching the pages of a list one after the other is fetching the whole list. */
  lemma {:induction false} SlicesAppend(customers: seq<Customer>, a: seq<Page>, b: seq<Page>)
    ensures Slices(customers, a + b) == Slices(customers, a) + Slices(customers, b)
    decreases |a|
  {
    if |a| == 0 {
      assert a + b == b;
    } else {
      assert (a + b)[0] == a[0] && (a + b)[1..] == a[1..] + b;
      SlicesAppend(customers, a[1..], b);
      var h := FindAll(customers, a[0]);
      assert Slices(customers, a + b) == h + (Slices(customers, a[1..]) + Slices(customers, b));
    }
  }

  /** 250 customers with page size 100: pages at offsets 0, 100 and 200, fetching 100, 100 and 50 customers. */
  lemma Example250(customers: seq<Customer>)
    requires |customers| == 250
    ensures PageCalls(250, 100) == [Page(100, 0), Page(100, 100), Page(100, 200)]
    ensures |FindAll(customers, Page(100, 0))| == 100
    ensures |FindAll(customers, Page(100, 100))| == 100
    ensures |FindAll(customers, Page(100, 200))| == 50
  {
  }

  /** 200 customers with page size 100: pages at offsets 0 and 100; 50 customers: one page of 50 at offset 0. */
  lemma Example200And50()
    ensures PageCalls(200, 100) == [Page(100, 0), Page(100, 100)]
    ensures PageCalls(50, 100) == [Page(50, 0)]
  {
  }
}

=== FILE: records.dfy ===
/** The rows the voucher core reads and writes. */
module Records {

  /** A registered customer; read-only for the voucher core. */
  datatype Customer = Customer(id: string, name: string, email: string)

  /**
    A voucher row. `expiry` is the expiration timestamp in seconds; `used`
    is the redemption flag, false for every freshly minted voucher.
   */
  datatype Voucher = Voucher(code: string, customerId: string, offerId: string, expiry: nat, used: bool)

  /** The customer ids of a sequence of customers, in order. */
  function CustomerIds(cs: seq<Customer>): (ids: seq<string>)
    ensures |ids| == |cs|
    ensures forall i :: 0 <= i < |cs| ==> ids[i] == cs[i].id
  {
    seq(|cs|, i requires 0 <= i < |cs| => cs[i].id)
  }

  /** The customer ids a sequence of vouchers was issued to, in order. */
  function OwnerIds(vs: seq<Voucher>): (ids: seq<string>)
    ensures |ids| == |vs|
    ensures forall i :: 0 <= i < |vs| ==> ids[i] == vs[i].customerId
  {
    seq(|vs|, i requires 0 <= i < |vs| => vs[i].customerId)
  }

  /** The codes of a sequence of vouchers, in order. */
  function Codes(vs: seq<Voucher>): (codes: seq<string>)
    ensures |codes| == |vs|
    ensures forall i :: 0 <= i < |vs| ==> codes[i] == vs[i].code
  {
    seq(|vs|, i requires 0 <= i < |vs| => vs[i].code)
  }
}

=== FILE: redemption.dfy ===
/**
  Redeeming and listing vouchers through the voucher view, the join of a
  voucher with its customer's email and its offer's discount.

  Redemption looks up, inside a transaction, the first unused row with the
  given code and email. No row means "Coupon is not valid"; an expired row
  means "Coupon has expired"; otherwise the voucher is marked used and its
  discount returned. The `used` update is issued outside that transaction and
  takes effect on its own, and the transaction is committed after it. So a
  failing lookup or update changes nothing, while a failing commit rejects
  the request after the voucher has already been marked used.

  Listing returns, in view order, the unused rows of one email whose expiry
  lies strictly after now. Timestamps are seconds; the clock is a parameter.
 */
module Redemption {
  import opened Wrappers

  /** One row of the voucher view: a `Records.Voucher` with its id, its owner's email and its offer's discount. */
  datatype ViewRow = ViewRow(id: string, code: string, email: string, expiry: nat, used: bool, discount: int)

  const ExpiredMessage: string := "Coupon has expired"
  const NotValidMessage: string := "Coupon is not valid"

  /** The answer to one redemption request. */
  datatype Verdict = Discount(amount: int) | Expired | NotValid

  /** The message returned for the two refusals. */
  function VerdictText(v: Verdict): (t: Option<string>)
    ensures t.None? <==> v.Discount?
    ensures v == Expired <==> t == Some(ExpiredMessage)
    ensures v == NotValid <==> t == Some(NotValidMessage)
  {
    match v
    case Discount(_) => None
    case Expired => Some(ExpiredMessage)
    case NotValid => Some(NotValidMessage)
  }

  /** Which database call of a redemption fails, if any. */
  datatype RedeemFault = NoRedeemFault | LookupFails | UpdateFails | CommitFails

  /** What one redemption request leaves behind: its answer, or the error it rejects with, and the view afterwards. */
  datatype Redeemed = Redeemed(answer: Result<Verdict, RedeemFault>, rows: seq<ViewRow>)

  /** The lookup's condition: this code, this email, not yet used. */
  predicate Matches(r: ViewRow, code: string, email: string) {
    r.code == code && r.email == email && !r.used
  }

  /** A row is still redeemable at `now` when its expiry lies strictly after it. */
  predicate Unexpired(r: ViewRow, now: nat) {
    r.expiry > now
  }

  /** The index of the first row at or after `from` matching the lookup. */
  function FindOne(rows: seq<ViewRow>, code: string, email: string, from: nat): (k: Option<nat>)
    requires from <= |rows|
    ensures k.Some? ==> from <= k.value < |rows| && Matches(rows[k.value], code, email)
    ensures k.Some? ==> forall j :: from <= j < k.value ==> !Matches(rows[j], code, email)
    ensures k.None? <==> forall j :: from <= j < |rows| ==> !Matches(rows[j], code, email)
    decreases |rows| - from
  {
    if from == |rows| then None
    else if Matches(rows[from], code, email) then Some(from)
    else FindOne(rows, code, email, from + 1)
  }

  /** The update `{used: true}` on every row of voucher `id`. */
  function MarkUsed(rows: seq<ViewRow>, id: string): (r: seq<ViewRow>)
    ensures |r| == |rows|
    ensures forall k :: 0 <= k < |rows| && rows[k].id != id ==> r[k] == rows[k]
    ensures forall k :: 0 <= k < |rows| && rows[k].id == id ==> r[k] == rows[k].(used := true)
  {
    seq(|rows|, k requires 0 <= k < |rows| => if rows[k].id == id then rows[k].(used := true) else rows[k])
  }

  /** The commit that ends every path past the lookup: a failing commit turns the verdict into a rejection. */
  function Commit(v: Verdict, rows: seq<ViewRow>, fault: RedeemFault): (r: Redeemed)
    ensures r.rows == rows
    ensures r.answer.Failure? <==> fault.CommitFails?
    ensures r.answer.Success? ==> r.answer.value == v
  {
    if fault.CommitFails? then Redeemed(Failure(CommitFails), rows) else Redeemed(Success(v), rows)
  }

  /** One redemption request at time `now`. */
  function VerifyCoupon(rows: seq<ViewRow>, code: string, email: string, now: nat, fault: RedeemFault): (r: Redeemed)
    ensures fault.LookupFails? ==> r == Redeemed(Failure(LookupFails), rows)
    ensures fault.CommitFails? ==> r.answer.Failure?
    ensures r.answer == Success(NotValid) <==>
              (fault.NoRedeemFault? || fault.UpdateFails?) && forall j :: 0 <= j < |rows| ==> !Matches(rows[j], code, email)
    ensures r.answer.Failure? ==> r.answer.error == fault
    ensures r.answer.Success? && r.answer.value.Discount? ==>
              exists j :: 0 <= j < |rows| && Matches(rows[j], code, email) && Unexpired(rows[j], now) &&
                          r.answer.value.amount == rows[j].discount && r.rows == MarkUsed(rows, rows[j].id)
    ensures r.answer.Success? && !r.answer.value.Discount? ==> r.rows == rows
    ensures r.rows == rows ||
              exists j :: 0 <= j < |rows| && Matches(rows[j], code, email) && Unexpired(rows[j], now) &&
                          r.rows == MarkUsed(rows, rows[j].id)
  {
    if fault.LookupFails? then Redeemed(Failure(LookupFails), rows)
    else
      match FindOne(rows, code, email, 0)
      case None => Commit(NotValid, rows, fault)
      case Some(i) =>
        if !Unexpired(rows[i], now) then Commit(Expired, rows, fault)
        else if fault.UpdateFails? then Redeemed(Failure(UpdateFails), rows)
        else Commit(Discount(rows[i].discount), MarkUsed(rows, rows[i].id), fault)
  }

  /** Listing's condition: this email, not used, expiry strictly after now. */
  predicate Listable(r: ViewRow, email: string, now: nat) {
    r.email == email && !r.used && Unexpired(r, now)
  }

  /** The listing query, keeping view order. */
  function ListByEmail(rows: seq<ViewRow>, email: string, now: nat): (r: seq<ViewRow>)
    ensures |r| <= |rows|
    ensures forall x :: x in r <==> x in rows && Listable(x, email, now)
    decreases |rows|
  {
    if |rows| == 0 then []
    else if Listable(rows[0], email, now) then [rows[0]] + ListByEmail(rows[1..], email, now)
    else ListByEmail(rows[1..], email, now)
  }

  /** The listing request; a failing query propagates. */
  function GetCouponByEmail(rows: seq<ViewRow>, email: string, now: nat, queryFails: bool): (r: Result<seq<ViewRow>, RedeemFault>)
    ensures r.Failure? <==> queryFails
    ensures r.Success? ==> forall x :: x in r.value <==> x in rows && Listable(x, email, now)
  {
    if queryFails then Failure(LookupFails) else Success(ListByEmail(rows, email, now))
  }

  /** Within one email, a code names at most one voucher. */
  predicate CodesIdentify(rows: seq<ViewRow>) {
    forall i, j :: 0 <= i < |rows| && 0 <= j < |rows| && rows[i].code == rows[j].code && rows[i].email == rows[j].email
      ==> rows[i].id == rows[j].id
  }

  /** An unexpired unused match is redeemed: its discount is returned and only that voucher's rows change. */
  lemma RedeemValid(rows: seq<ViewRow>, code: string, email: string, now: nat, i: nat)
    requires i < |rows| && Matches(rows[i], code, email) && Unexpired(rows[i], now)
    requires forall j :: 0 <= j < i ==> !Matches(rows[j], code, email)
    ensures VerifyCoupon(rows, code, email, now, NoRedeemFault) ==
            Redeemed(Success(Discount(rows[i].discount)), MarkUsed(rows, rows[i].id))
  {
  }

  /** An expired match is refused and no row changes. */
  lemma RedeemExpired(rows: seq<ViewRow>, code: string, email: string, now: nat, i: nat, fault: RedeemFault)
    requires i < |rows| && Matches(rows[i], code, email) && !Unexpired(rows[i], now)
    requires forall j :: 0 <= j < i ==> !Matches(rows[j], code, email)
    requires fault.NoRedeemFault? || fault.UpdateFails?
    ensures VerifyCoupon(rows, code, email, now, fault) == Redeemed(Success(Expired), rows)
  {
  }

  /** A failing update, like a failing lookup, changes nothing: no row becomes used. */
  lemma FailedRedeemMarksNothing(rows: seq<ViewRow>, code: string, email: string, now: nat)
    ensures VerifyCoupon(rows, code, email, now, UpdateFails).answer.Failure? <==>
              exists j :: 0 <= j < |rows| && Matches(rows[j], code, email) && Unexpired(rows[j], now) &&
                          forall i :: 0 <= i < j ==> !Matches(rows[i], code, email)
    ensures VerifyCoupon(rows, code, email, now, UpdateFails).rows == rows
  {
  }

  /**
    A failing commit after a successful update rejects the request, yet the
    voucher stays marked used, because the update ran outside the
    transaction.
   */
  lemma CommitFailureSpendsVoucher(rows: seq<ViewRow>, code: string, email: string, now: nat, i: nat)
    requires i < |rows| && Matches(rows[i], code, email) && Unexpired(rows[i], now)
    requires forall j :: 0 <= j < i ==> !Matches(rows[j], code, email)
    ensures VerifyCoupon(rows, code, email, now, CommitFails) ==
            Redeemed(Failure(CommitFails), MarkUsed(rows, rows[i].id))
  {
  }

  /**
    After such a rejected request, a retry with the same code and email
    finds no unused row and answers "Coupon is not valid", provided a code
    names one voucher per email.
   */
  lemma RetryAfterFailedCommit(rows: seq<ViewRow>, code: string, email: string, now: nat, later: nat, i: nat)
    requires CodesIdentify(rows)
    requires i < |rows| && Matches(rows[i], code, email) && Unexpired(rows[i], now)
    requires forall j :: 0 <= j < i ==> !Matches(rows[j], code, email)
    ensures var after := VerifyCoupon(rows, code, email, now, CommitFails).rows;
            VerifyCoupon(after, code, email, later, NoRedeemFault) == Redeemed(Success(NotValid), after)
  {
    CommitFailureSpendsVoucher(rows, code, email, now, i);
  }

  /**
    Redeeming a code twice: once the first call returned a discount, a second
    call with the same code and email finds nothing and answers "Coupon is
    not valid", leaving the view as it is.
   */
  lemma RedeemTwice(rows: seq<ViewRow>, code: string, email: string, now: nat, later: nat)
    requires CodesIdentify(rows)
    requires VerifyCoupon(rows, code, email, now, NoRedeemFault).answer.Success?
    requires VerifyCoupon(rows, code, email, now, NoRedeemFault).answer.value.Discount?
    ensures var after := VerifyCoupon(rows, code, email, now, NoRedeemFault).rows;
            VerifyCoupon(after, code, email, later, NoRedeemFault) == Redeemed(Success(NotValid), after)
  {
  }

  /** A redeemed voucher no longer appears in its owner's listing. */
  lemma RedeemedNotListed(rows: seq<ViewRow>, code: string, email: string, now: nat, later: nat)
    requires CodesIdentify(rows)
    requires VerifyCoupon(rows, code, email, now, NoRedeemFault).answer.Success?
    requires VerifyCoupon(rows, code, email, now, NoRedeemFault).answer.value.Discount?
    ensures var after := VerifyCoupon(rows, code, email, now, NoRedeemFault).rows;
            forall x :: x in ListByEmail(after, email, later) ==> x.code != code
  {
  }

  /** When every row is listable the listing is the whole view, in order. */
  lemma {:induction false} ListAllListable(rows: seq<ViewRow>, email: string, now: nat)
    requires forall k :: 0 <= k < |rows| ==> Listable(rows[k], email, now)
    ensures ListByEmail(rows, email, now) == rows
    decreases |rows|
  {
    if |rows| > 0 {
      ListAllListable(rows[1..], email, now);
      assert [rows[0]] + rows[1..] == rows;
    }
  }

  /** Listing keeps view order: listing a concatenation lists each part. */
  lemma {:induction false} ListAppend(a: seq<ViewRow>, b: seq<ViewRow>, email: string, now: nat)
    ensures ListByEmail(a + b, email, now) == ListByEmail(a, email, now) + ListByEmail(b, email, now)
    decreases |a|
  {
    if |a| == 0 {
      assert a + b == b;
    } else {
      assert (a + b)[0] == a[0] && (a + b)[1..] == a[1..] + b;
      ListAppend(a[1..], b, email, now);
    }
  }

  /** With no listable row for the email the listing is empty. */
  lemma {:induction false} ListEmpty(rows: seq<ViewRow>, email: string, now: nat)
    requires forall k :: 0 <= k < |rows| ==> !Listable(rows[k], email, now)
    ensures GetCouponByEmail(rows, email, now, false) == Success([])
    decreases |rows|
  {
    if |rows| > 0 {
      ListEmpty(rows[1..], email, now);
    }
  }

  /** A valid unused coupon one day ahead yields its discount of 10 and is marked used; one day behind, it has expired. */
  lemma ExampleRedeem(now: nat, id: string, code: string, email: string)
    requires now >= 86400
    ensures var rows := [ViewRow(id, code, email, now + 86400, false, 10)];
            VerifyCoupon(rows, code, email, now, NoRedeemFault) ==
              Redeemed(Success(Discount(10)), [ViewRow(id, code, email, now + 86400, true, 10)])
    ensures var rows := [ViewRow(id, code, email, now - 86400, false, 10)];
            VerifyCoupon(rows, code, email, now, NoRedeemFault) == Redeemed(Success(Expired), rows)
    ensures VerifyCoupon([], code, email, now, NoRedeemFault) == Redeemed(Success(NotValid), [])
  {
    var rows := [ViewRow(id, code, email, now + 86400, false, 10)];
    assert FindOne(rows, code, email, 0) == Some(0);
    assert MarkUsed(rows, id) == [ViewRow(id, code, email, now + 86400, true, 10)];
    var stale := [ViewRow(id, code, email, now - 86400, false, 10)];
    assert FindOne(stale, code, email, 0) == Some(0);
  }
}

=== FILE: wrappers.dfy ===
/** Failure-carrying datatypes shared by every module of the voucher model. */
module Wrappers {

  /** A value that may be missing: an absent row, an unloaded filter. */
  datatype Option<+T> = None | Some(value: T)

  /** Either the value an operation produced or the error it raised. */
  datatype Result<+R, +E> = Success(value: R) | Failure(error: E)
}
